=== FILE: README.md ===
# kodisync decision logic in Dafny

kodisync keeps several Kodi instances ("hosts") playing the same video at the
same position. It polls every host in a loop, and each pass of the loop goes
through the same steps:

1. Refresh each host. It learns the active video player and, when there is
   one, the playing item and the playback properties (speed and position).
2. Check that all hosts play the same thing.
3. Compare each host's fresh snapshot against its *sync baseline*
   (`syncState`). The baseline is the state kodisync last put that host in.
   A host that has drifted loses its baseline.
4. Count the hosts without a baseline and pick a reconciliation:
   - nothing to do;
   - a full resync, where every host is seeked to the earliest position;
   - the *primary-playing* protocol: pause everyone, seek the others to the
     lone unsynced host, then start play again staggered by how far ahead
     each host is;
   - the *primary-paused* protocol: pin the lone unsynced host and seek the
     others to it;
   - the fatal "Unexpected speed" error.

This project models one pass of that loop as a pure function.
`Reconcile.Cycle` takes the host records, what the refresh observed on each
host, and the replies each host would give to the commands. It returns the new
host records and a `Plan` that says what was decided and the values the
commands carry. The pure helpers are modelled with it: the tolerance test, the
time-record conversion, `pad` and `msToString`.

Modules:

- `Wrappers` holds `Option`.
- `Timing` holds the 1000 ms threshold, `NearEnough`, Kodi's `Time` record and
  `TimeToMs`.
- `Format` holds the JavaScript integer-to-string conversion, `Pad`, the
  `msToString` fields (`Clock`) and text (`MsToString`). It also has
  `ParseClock`, the reading that undoes `MsToString`.
- `Hosts` holds the `Baseline` (`Unknown | Paused | Playing`), the `Host`
  record, and the host operations `Read`, `Pause`, `Play`, `Seek` and
  `Refresh`. It also has `EarliestPosition`.
- `Content` holds `playingSameThing`.
- `Drift` holds the classifier, the unsynced count and the search for the
  primary.
- `Reconcile` holds the three protocols, the selector and one whole cycle.
- `Scenarios` holds concrete cycles.

Behaviours of the code worth noting; the model follows the code:

- In the primary-paused protocol, a secondary's new baseline comes from the
  properties read after its seek. If that read reports speed 1, the baseline
  is a *play* baseline at the position read. It is not a pause at the
  primary's position.
- `Host.play` records the position read *before* the play command, and the
  clock reading taken after the reply.
- A host without a player has its baseline dropped during the refresh. A lone
  host has no other host to be compared with, so the cycle still reconciles it
  from its stale speed and position. `Scenarios.LoneHostWithoutPlayerIsPinned`
  shows such a host getting a pause baseline.
- `playingSameThing` compares every host with host 0 only. The comparison is
  not transitive, so the verdict can depend on the order of the hosts
  (`Content.VerdictDependsOnReferenceHost`).
- The top of the cycle tests `playerid` for truthiness, so id 0 counts as
  "no player" there. `playingSameThing` tests it against `null`. Both tests
  are modelled (`Hosts.HasPlayer` and `playerId.None?`).

## Model

| member | source | states |
|---|---|---|
| `Timing.NearEnough` | kodisync.js:5-10 | true exactly when the value lies strictly inside the open interval of 1000 ms either side of the target |
| `Timing.NearEnoughSymmetric` | kodisync.js:8-10 | the test gives the same answer with its arguments swapped |
| `Timing.NearEnoughBoundary` | kodisync.js:5-10 | positions exactly 1000 ms apart are not near enough; 999 ms apart they are |
| `Timing.TimeToMs` | kodisync.js:28-30 | for a record with non-negative hours, minutes and seconds below 60 and milliseconds below 1000, the count is ≥ 0, its whole hours are the hour field and its remainder modulo 1000 is the millisecond field; that the record is fully recovered is `Format.ClockOfTime` |
| `Format.ClockRoundTrip` | kodisync.js:28-30 | for every stamp ≥ 0, `timeToMs` of the hour/minute/second/millisecond fields that `msToString` computes gives back the stamp |
| `Format.ClockOfTime` | kodisync.js:28-30 | the other direction: a time record with minutes and seconds below 60 and milliseconds below 1000 is recovered from its millisecond count |
| `Format.Clock` | kodisync.js:40-44 | for a stamp ≥ 0 the fields satisfy 0 ≤ ms < 1000, 0 ≤ s < 60, 0 ≤ m < 60 and h ≥ 0; the hour field is positive exactly when the stamp is at least 3600000 |
| `Format.Digits` | kodisync.js:33 | the decimal text of a natural number is non-empty, all digits, and starts with '0' only for 0 |
| `Format.ParseDigitsOfDigits` | kodisync.js:33 | reading the decimal text of n gives back n |
| `Format.ToString` | kodisync.js:33 | the integer-to-string conversion gives non-empty text of digits and '-', and the plain digits for n ≥ 0 |
| `Format.Pad` | kodisync.js:32-38 | the result has length max(length, number of characters of n); it ends with the text of n; every character before that is '0' |
| `Format.PadIdentity` | kodisync.js:34-37 | when the text already reaches the requested length, padding returns it unchanged |
| `Format.PadValue` | kodisync.js:32-38 | a padded natural number is all digits and reads back as the number, so the zeros are only leading zeros |
| `Format.JsRem` | kodisync.js:41-43 | JavaScript's `%` by a positive divisor: the result differs from the dividend by a multiple of the divisor, is smaller than the divisor in magnitude, and takes the dividend's sign |
| `Format.MsToString` | kodisync.js:40-46 | the text contains 'h' exactly when the stamp is at least one hour (3600000 ms), for every integer stamp; that the text loses nothing is `Format.MsToStringRoundTrip` |
| `Format.MsToStringRoundTrip` | kodisync.js:40-46 | every stamp ≥ 0 is recovered from its `[<h>h]MM:SS.mmm` text, so the format loses nothing |
| `Hosts.Read` | kodisync.js:116-127 | a properties read sets speed, position (the time record in ms) and query time, and leaves player, item and baseline alone |
| `Hosts.Pause` | kodisync.js:136-143 | after `pause` the speed is 0 and the baseline is a pause at the last read position; nothing else changes |
| `Hosts.Play` | kodisync.js:145-153 | after `play` the speed is the one the reply reports and the baseline is a play at the last read position, stamped with the given clock; nothing else changes |
| `Hosts.Seek` | kodisync.js:155-167 | after `seek` the host holds the re-read speed and position; the baseline is a play at that position (stamped with the clock) exactly when the re-read speed is 1, and otherwise a pause there |
| `Hosts.Refresh` | kodisync.js:183-193 | the refresh records the player id; with a player it adopts the new item and properties; without one it drops the baseline and keeps the stale item and properties; it never sets a baseline |
| `Hosts.EarliestPosition` | kodisync.js:79-81 | Infinity exactly for no hosts; otherwise a value ≤ every host's position and equal to some host's position |
| `Hosts.HasPlayer` | kodisync.js:185 | the truthiness test on `playerid`: a missing id and the id 0 both mean no player. It has no contract of its own; `Hosts.Refresh` and `Reconcile.Cycle` state what it decides, and `Scenarios.PlayerIdZeroIsResynced` shows the id 0 case |
| `Content.SomeWithoutPlayer` | kodisync.js:56 | true exactly when some host's player id is missing |
| `Content.EveryMatches` | kodisync.js:57-76 | true exactly when every given host matches the reference item under the per-host rule |
| `Content.PlayingSameThing` | kodisync.js:54-77 | true for fewer than 2 hosts; otherwise false when some player id is missing, and else true exactly when every host from index 1 on matches host 0 |
| `Content.ShowInfoAvailable` | kodisync.js:60-63 | both items have a non-empty show title and neither season nor episode is -1. It has no contract of its own; `Content.ShowModeIgnoresTitles` and `Content.FallbackMatchesTitleOrLabel` state what it selects |
| `Content.SameItem` | kodisync.js:65-75 | the per-host comparison with host 0. It has no contract of its own; `Content.ShowModeIgnoresTitles`, `Content.FallbackMatchesTitleOrLabel` and `Content.SameItemReflexiveSymmetric` carry its properties |
| `Content.ShowModeIgnoresTitles` | kodisync.js:60-75 | with non-empty show titles and seasons and episodes other than -1 on both sides, two items match exactly when show, season and episode are equal, whatever their titles and labels are |
| `Content.FallbackMatchesTitleOrLabel` | kodisync.js:70-75 | without that show information, two items match exactly when their titles or their labels are equal |
| `Content.SameItemReflexiveSymmetric` | kodisync.js:60-75 | every item matches itself, and the per-host comparison is symmetric |
| `Content.VerdictDependsOnReferenceHost` | kodisync.js:57-76 | there are three hosts that match in one order and not in another, because only host 0 is the reference |
| `Drift.Classify` | kodisync.js:204-239 | only the baseline may change, and only to Unknown. At speed 0 a baseline survives exactly when it is a pause less than 1000 ms from the position. At speed 1 it survives exactly when it is a play whose projection (baseline position + query time − baseline time) is less than 1000 ms from the position. At any other speed, or with no baseline, nothing changes |
| `Drift.ClassifyAll` | kodisync.js:204-239 | the classification pass keeps the number of hosts and classifies each host on its own, independently of the others |
| `Drift.ClassifyIdempotent` | kodisync.js:204-239 | classifying the same snapshot twice gives the same result as once |
| `Drift.ClassifyAllIdempotent` | kodisync.js:204-239 | the same holds for the classification pass over all hosts |
| `Drift.PausedHostStaysSynced` | kodisync.js:136-143 | a host just paused by kodisync and read again unchanged keeps its baseline |
| `Drift.PlayedHostNextCycle` | kodisync.js:145-153 | after `play`, a host reported playing at the next cycle keeps the play baseline exactly when its position is within 1000 ms of the recorded position plus the time elapsed since the play; otherwise it loses the baseline |
| `Drift.SeekedHostClassification` | kodisync.js:155-167 | after a seek, an unchanged snapshot keeps the new baseline when the host is not playing. When it is playing, it keeps it exactly when the clock reading is within 1000 ms of the read's query time |
| `Drift.UnsyncedCount` | kodisync.js:242 | the count is at most the number of hosts, and it is 0 exactly when every host has a baseline |
| `Drift.UnsyncedCountIsSetSize` | kodisync.js:242 | the count equals the number of hosts whose baseline is Unknown |
| `Drift.UniqueUnsynced` | kodisync.js:265-267 | with a count of 1, the unsynced host is the only one; every other host is a secondary |
| `Drift.TwoUnsynced` | kodisync.js:242-246 | two distinct hosts without a baseline give a count of at least 2 |
| `Drift.FirstUnsynced` | kodisync.js:266 | finds the first host without a baseline, and finds none exactly when every host has one |
| `Reconcile.ComputeStagger` | kodisync.js:281-291 | every wait is ≥ 0, some host waits exactly 0, and each host's position is the zero point plus its wait |
| `Reconcile.FullResync` | kodisync.js:244-261 | only hosts with speed ≠ 0 are paused. The target is the least position re-read after the pause. Every host is re-read and seeked, takes its baseline from the read after the seek, and so ends with a baseline |
| `Reconcile.FollowPrimaryPlaying` | kodisync.js:269-295 | the target is the primary's re-read position, and the secondaries hold their post-seek positions. The waits are non-negative, one is 0, and each is the host's distance ahead of the zero point. Every host ends with the play speed its reply reports and a play baseline at its own position, and keeps its player and item |
| `Reconcile.Settle` | kodisync.js:273-279 | after the pause, the primary stands at the position re-read after its pause and every other host at the position read after its seek; player and item are untouched |
| `Reconcile.SettleAll` | kodisync.js:273-279 | the settling is done for every host, each from its own replies, with the lone primary singled out |
| `Reconcile.PlayAll` | kodisync.js:286-291 | every host ends with a play baseline at its own position, stamped with its own reply's clock, and the speed its reply reports; position, player and item are untouched |
| `Reconcile.FollowPrimaryPaused` | kodisync.js:297-310 | the primary's baseline becomes a pause at its own position, and nothing else about it changes. Each secondary holds its post-seek speed and position, keeps its player and item, and its baseline is a play at the post-seek position stamped with the seek clock when that speed is 1, and otherwise a pause at that position. Every host ends with a baseline |
| `Reconcile.Reconcile` | kodisync.js:241-316 | it plans no action exactly when every host has a baseline, and a full resync exactly when 2 or more hosts lack one. A fault names an unsynced host whose speed is neither 0 nor 1. A plan with commands leaves every host with a baseline; any other plan changes nothing |
| `Reconcile.ReconcileAllSynced` | kodisync.js:242-316 | with every host synced, no commands are issued and the hosts are unchanged |
| `Reconcile.ReconcileSeveralUnsynced` | kodisync.js:244-261 | two distinct unsynced hosts select the full resync |
| `Reconcile.ReconcileLoneUnsynced` | kodisync.js:263-313 | with a single unsynced host as primary, speed 1 selects the playing protocol, speed 0 the paused protocol, and any other speed the fatal error |
| `Reconcile.Cycle` | kodisync.js:181-316 | the cycle stops with a mismatch exactly when the refreshed hosts do not play the same thing, and then the hosts are left as refreshed, neither classified nor commanded. Otherwise the hosts are classified: the plan is Idle exactly when no classified host lacks a baseline, and then the hosts are the classified ones; it is a full resync exactly when two or more classified hosts lack one; a plan with commands leaves every host with a baseline. A cycle without commands only keeps or drops baselines and never restores one. A host whose player id is missing or 0 leaves such a cycle without a baseline |
| `Reconcile.RefreshAll` | kodisync.js:183-193 | every host is refreshed from its own observation, and the number of hosts is kept |
| `Reconcile.RefreshKeepsOrDrops` | kodisync.js:183-193 | the refresh only keeps or drops baselines, and a host whose player id is missing or 0 leaves it without one |
| `Reconcile.MatchedCycle` | kodisync.js:204-313 | once the hosts match, the plan is never a mismatch; it is Idle exactly when no classified host lacks a baseline, and then the hosts are the classified ones; it is a full resync exactly when two or more classified hosts lack one; commands leave every host with a baseline, and otherwise baselines are only kept or dropped |
| `Reconcile.CycleWithoutPlayer` | kodisync.js:183-201 | with two or more hosts, one without a player makes the cycle stop at the content check with that host's baseline dropped |
| `Scenarios.PausedWithinThreshold` | kodisync.js:204-219 | two paused hosts 500 ms apart, both with a pause baseline at 10 s, need no action |
| `Scenarios.PlayingHostDrifts` | kodisync.js:221-235 | a playing host 3.5 s off its projection becomes the lone primary, and the playing protocol runs |
| `Scenarios.TwoHostsDrift` | kodisync.js:244-261 | two of three hosts drifting in one cycle trigger the full resync |
| `Scenarios.FaultIsReachable` | kodisync.js:185-192 | a host that loses its player and returns mid-seek at speed 2 leads, one cycle later, to the "Unexpected speed" error of line 312 |
| `Scenarios.PlayerIdZeroIsResynced` | kodisync.js:185-191 | a host reporting player id 0 loses its baseline at the refresh, yet passes the content check (which tests for null), and is pinned as the lone paused primary |
| `Scenarios.LoneHostWithoutPlayerIsPinned` | kodisync.js:54-55 | a single host without a player still gets a pause baseline from its stale reading |

## Left out

- `getClient` (kodisync.js:12-26) is left out. It relies on the WHATWG URL parser and builds a JSON-RPC client, which is library behaviour.
- The remote calls (`getResult`, `getPlayerResult`, `updatePlayerId`, `updateCurrentItem`, `updatePlaybackStatus`) are transport. Their results are inputs: an `Observation` per host for the refresh, and `Replies` per host for the commands. Remote failures are not modelled.
- `Date.now()` is an input: the query time of each read, and the clock readings in `Replies`.
- Hosts.Seek: does not model the seek percentage `100 * target / duration`. That is floating point, and where the seek lands is up to the remote player. The re-read after the seek is an input, so `duration` is not tracked either.
- `getResult` sets `querytime` on every remote call: the player lookup, the item lookup and the commands. The model sets it only on properties reads. Every value the classifier reads was written by the properties read just before it.
- `wait`, `setTimeout`, the `Promise.all` fan-outs and the `while (true)` loop with its 1000, 500 and 2000 ms sleeps are timing and concurrency. One pass of the loop is modelled, and the stagger only as computed wait values.
- Format.Clock: the source computes `Math.floor(stamp / 1000 / 60)` in floating point. The model uses exact integer division, so rounding of very large stamps is not modelled.
- Hosts.EarliestPosition: positions are integers. The floating point `Infinity` only appears as the start value of the fold, modelled by `Extended`. A NaN position would need a host that was never read, which the model excludes (next lines).
- Item fields that Kodi leaves out are not modelled as `undefined`. A missing show title is the empty string, and season and episode use Kodi's -1.
- Before its first read, a host's fields are `undefined` in the source. The model starts from a host record supplied by the caller.
- Logging, `oldSyncState` (diagnostics only), `nowPlayingString`, argument parsing and `runAndReport` are presentation and process handling.

=== FILE: content.dfy ===
/** The content-match rule `playingSameThing`: kodisync only synchronises
    hosts that all play the same episode or film. */
module Content {
  import opened Hosts

  /** Show-based matching applies when both items name a show (a non-empty,
      hence truthy, show title) and neither season nor episode is -1. */
  predicate ShowInfoAvailable(a: Item, b: Item)
  {
    && a.showTitle != "" && b.showTitle != ""
    && a.season != -1 && b.season != -1
    && a.episode != -1 && b.episode != -1
  }

  /** The per-host comparison against the reference host. */
  predicate SameItem(a: Item, b: Item)
  {
    if ShowInfoAvailable(a, b) then
      a.showTitle == b.showTitle && a.season == b.season && a.episode == b.episode
    else
      a.title == b.title || a.displayLabel == b.displayLabel
  }

  /** `hosts.some(host => host.playerid == null)`. */
  function SomeWithoutPlayer(hs: seq<Host>): (r: bool)
    ensures r <==> exists i :: 0 <= i < |hs| && hs[i].playerId.None?
  {
    if |hs| == 0 then false
    else
      assert forall i :: 1 <= i < |hs| ==> hs[1..][i - 1] == hs[i];
      hs[0].playerId.None? || SomeWithoutPlayer(hs[1..])
  }

  /** `every` over the hosts after the reference: each matches `reference`. */
  function EveryMatches(reference: Item, rest: seq<Host>): (r: bool)
    ensures r <==> forall i :: 0 <= i < |rest| ==> SameItem(rest[i].item, reference)
  {
    if |rest| == 0 then true
    else
      assert forall i :: 1 <= i < |rest| ==> rest[1..][i - 1] == rest[i];
      SameItem(rest[0].item, reference) && EveryMatches(reference, rest[1..])
  }

  /** `playingSameThing(hosts)`: every host is compared with host 0. */
  function PlayingSameThing(hs: seq<Host>): (r: bool)
    ensures |hs| < 2 ==> r
    ensures |hs| >= 2 && (exists i :: 0 <= i < |hs| && hs[i].playerId.None?) ==> !r
    ensures |hs| >= 2 && (forall i :: 0 <= i < |hs| ==> hs[i].playerId.Some?) ==>
      (r <==> forall i :: 1 <= i < |hs| ==> SameItem(hs[i].item, hs[0].item))
  {
    if |hs| < 2 then true
    else if SomeWithoutPlayer(hs) then false
    else
      assert forall i :: 1 <= i < |hs| ==> hs[1..][i - 1] == hs[i];
      EveryMatches(hs[0].item, hs[1..])
  }

  /** With show information on both sides, the verdict is decided by show,
      season and episode alone: episode titles and labels play no part. */
  lemma ShowModeIgnoresTitles(a: Item, b: Item, title: string, caption: string)
    requires ShowInfoAvailable(a, b)
    ensures SameItem(a, b) <==> a.showTitle == b.showTitle && a.season == b.season && a.episode == b.episode
    ensures SameItem(a.(title := title, displayLabel := caption), b) == SameItem(a, b)
  {
  }

  /** Without show information on both sides, a shared title or a shared
      label is enough, whatever the show fields say. */
  lemma FallbackMatchesTitleOrLabel(a: Item, b: Item)
    requires !ShowInfoAvailable(a, b)
    ensures SameItem(a, b) <==> a.title == b.title || a.displayLabel == b.displayLabel
  {
  }

  /** The per-host comparison is reflexive and symmetric. */
  lemma SameItemReflexiveSymmetric(a: Item, b: Item)
    ensures SameItem(a, a)
    ensures SameItem(a, b) == SameItem(b, a)
  {
  }

  /** It is not transitive, so comparing everyone against host 0 makes the
      verdict depend on which host is listed first. */
  lemma VerdictDependsOnReferenceHost()
    ensures exists hs: seq<Host>, ks: seq<Host> ::
      |hs| == 3 && multiset(hs) == multiset(ks) && PlayingSameThing(hs) && !PlayingSameThing(ks)
  {
    var a := Item("", -1, -1, "Pilot", "a");
    var b := Item("", -1, -1, "Pilot", "b");
    var c := Item("", -1, -1, "Other", "b");
    var ha := Host(Wrappers.Some(1), a, 1, 0, 0, Unknown);
    var hb := ha.(item := b);
    var hc := ha.(item := c);
    var hs := [hb, ha, hc];
    var ks := [ha, hb, hc];
    assert PlayingSameThing(hs);
    assert forall i :: 0 <= i < |ks| ==> ks[i].playerId.Some?;
    assert !SameItem(ks[2].item, ks[0].item);
    assert !PlayingSameThing(ks);
    assert multiset(hs) == multiset(ks);
  }
}

=== FILE: drift.dfy ===
/** The drift classifier of kodisync's cycle: each host's fresh snapshot is
    compared against its baseline, which is kept or dropped to Unknown. */
module Drift {
  import opened Wrappers
  import opened Timing
  import opened Hosts

  /** Where a host playing since its baseline should be at the time of its
      last read (`target` in the playing branch of the classifier). */
  function ProjectedPosition(h: Host): int
    requires h.baseline.Playing?
  {
    h.baseline.position + h.queryTime - h.baseline.at
  }

  function Drop(h: Host): Host
  {
    h.(baseline := Unknown)
  }

  /** One pass of the classification loop over a single host. */
  function Classify(h: Host): (r: Host)
    // Only the baseline may change, and only to Unknown.
    ensures r == h.(baseline := r.baseline)
    ensures r.baseline == h.baseline || r.baseline == Unknown
    // Paused: the baseline survives iff it is a pause within tolerance.
    ensures !h.baseline.Unknown? && h.speed == 0 ==>
      (r.baseline == h.baseline <==> h.baseline.Paused? && Abs(h.position - h.baseline.position) < Threshold)
    // Playing: the baseline survives iff it is a play whose projection is within tolerance.
    ensures !h.baseline.Unknown? && h.speed == 1 ==>
      (r.baseline == h.baseline <==>
        h.baseline.Playing? && Abs(h.position - (h.baseline.position + (h.queryTime - h.baseline.at))) < Threshold)
    // Any other speed (seeking, fast-forward) is ignored.
    ensures h.speed != 0 && h.speed != 1 ==> r == h
    ensures h.baseline.Unknown? ==> r == h
  {
    if h.baseline.Unknown? then h
    else if h.speed == 0 then
      if !h.baseline.Paused? then Drop(h)
      else if !NearEnough(h.position, h.baseline.position) then Drop(h)
      else h
    else if h.speed == 1 then
      if !h.baseline.Playing? then Drop(h)
      else if !NearEnough(h.position, ProjectedPosition(h)) then Drop(h)
      else h
    else h
  }

  /** Classifying an unchanged snapshot a second time changes nothing. */
  lemma ClassifyIdempotent(h: Host)
    ensures Classify(Classify(h)) == Classify(h)
  {
  }

  /** The classification loop over all hosts. */
  function ClassifyAll(hs: seq<Host>): (r: seq<Host>)
    ensures |r| == |hs|
    ensures forall i :: 0 <= i < |hs| ==> r[i] == Classify(hs[i])
  {
    seq(|hs|, i requires 0 <= i < |hs| => Classify(hs[i]))
  }

  lemma ClassifyAllIdempotent(hs: seq<Host>)
    ensures ClassifyAll(ClassifyAll(hs)) == ClassifyAll(hs)
  {
    forall i | 0 <= i < |hs|
      ensures ClassifyAll(ClassifyAll(hs))[i] == ClassifyAll(hs)[i]
    {
      ClassifyIdempotent(hs[i]);
    }
  }

  /** A host that was just paused and is read again unchanged stays synced. */
  lemma PausedHostStaysSynced(h: Host)
    ensures Classify(Pause(h)) == Pause(h)
  {
  }

  /** After a seek, an unchanged snapshot keeps its new baseline when the
      host is not playing, and when it is playing exactly when the clock
      reading taken after the read is within tolerance of the read itself. */
  lemma SeekedHostClassification(h: Host, rd: Reading, clock: int)
    ensures rd.speed != 1 ==> Classify(Seek(h, rd, clock)) == Seek(h, rd, clock)
    ensures rd.speed == 1 ==>
      (Classify(Seek(h, rd, clock)) == Seek(h, rd, clock) <==> Abs(clock - rd.queryTime) < Threshold)
  {
  }

  /** The meaning of a play baseline: at the next cycle, a host reported
      playing keeps it exactly when its position is within tolerance of the
      recorded position advanced by the time elapsed since the play. */
  lemma PlayedHostNextCycle(h: Host, speed: int, clock: int, obs: Observation)
    requires HasPlayer(obs.playerId) && obs.reading.speed == 1
    ensures var next := Classify(Refresh(Play(h, speed, clock), obs));
      next.baseline == Playing(h.position, clock) <==>
        Abs(TimeToMs(obs.reading.time) - (h.position + (obs.reading.queryTime - clock))) < Threshold
    ensures var next := Classify(Refresh(Play(h, speed, clock), obs));
      next.baseline != Playing(h.position, clock) ==> next.baseline == Unknown
  {
  }

  /** The hosts whose baseline is Unknown. */
  ghost function UnsyncedSet(hs: seq<Host>): set<nat>
  {
    set i: nat | i < |hs| && hs[i].baseline.Unknown?
  }

  /** `unsyncedCount`: the number of hosts without a baseline, folded from the left. */
  function UnsyncedCount(hs: seq<Host>): (n: nat)
    ensures n <= |hs|
    ensures n == 0 <==> forall i :: 0 <= i < |hs| ==> !hs[i].baseline.Unknown?
  {
    if |hs| == 0 then 0
    else
      assert forall i :: 0 <= i < |hs| - 1 ==> hs[..|hs| - 1][i] == hs[i];
      UnsyncedCount(hs[..|hs| - 1]) + (if hs[|hs| - 1].baseline.Unknown? then 1 else 0)
  }

  /** The count is the size of the set of hosts without a baseline. */
  lemma {:induction false} UnsyncedCountIsSetSize(hs: seq<Host>)
    ensures UnsyncedCount(hs) == |UnsyncedSet(hs)|
  {
    if |hs| > 0 {
      var front := hs[..|hs| - 1];
      UnsyncedCountIsSetSize(front);
      var last: nat := |hs| - 1;
      if hs[last].baseline.Unknown? {
        assert UnsyncedSet(hs) == UnsyncedSet(front) + {last};
        assert last !in UnsyncedSet(front);
      } else {
        assert UnsyncedSet(hs) == UnsyncedSet(front);
      }
    }
  }

  /** With exactly one host unsynced, every other host has a baseline. */
  lemma UniqueUnsynced(hs: seq<Host>, p: nat)
    requires UnsyncedCount(hs) == 1 && p < |hs| && hs[p].baseline.Unknown?
    ensures forall j :: 0 <= j < |hs| && j != p ==> !hs[j].baseline.Unknown?
  {
    UnsyncedCountIsSetSize(hs);
    forall j | 0 <= j < |hs| && j != p
      ensures !hs[j].baseline.Unknown?
    {
      if hs[j].baseline.Unknown? {
        assert {p, j} <= UnsyncedSet(hs);
        assert |{p, j}| == 2;
        SubsetSize({p, j}, UnsyncedSet(hs));
      }
    }
  }

  /** Two distinct hosts without a baseline make a count of at least two. */
  lemma TwoUnsynced(hs: seq<Host>, i: nat, j: nat)
    requires i < |hs| && j < |hs| && i != j
    requires hs[i].baseline.Unknown? && hs[j].baseline.Unknown?
    ensures UnsyncedCount(hs) >= 2
  {
    UnsyncedCountIsSetSize(hs);
    assert {i, j} <= UnsyncedSet(hs);
    assert |{i, j}| == 2;
    SubsetSize({i, j}, UnsyncedSet(hs));
  }

  lemma SubsetSize(a: set<nat>, b: set<nat>)
    requires a <= b
    ensures |a| <= |b|
  {
    assert b == a + (b - a);
  }

  /** `hosts.find(host => host.syncState == null)`, as an index. */
  function FirstUnsynced(hs: seq<Host>, from: nat): (r: Option<nat>)
    requires from <= |hs|
    ensures r.None? <==> forall i :: from <= i < |hs| ==> !hs[i].baseline.Unknown?
    ensures r.Some? ==> from <= r.value < |hs| && hs[r.value].baseline.Unknown?
    ensures r.Some? ==> forall i :: from <= i < r.value ==> !hs[i].baseline.Unknown?
    decreases |hs| - from
  {
    if from == |hs| then None
    else if hs[from].baseline.Unknown? then Some(from)
    else FirstUnsynced(hs, from + 1)
  }
}

=== FILE: format.dfy ===
/** Number-to-text helpers of kodisync.js: `pad` and the `msToString`
    formatter, with the decimal reading that undoes them. */
module Format {
  import opened Wrappers
  import opened Timing

  predicate IsDigit(c: char)
  {
    '0' <= c <= '9'
  }

  predicate IsDigits(s: string)
  {
    forall i :: 0 <= i < |s| ==> IsDigit(s[i])
  }

  /** Characters that JavaScript's integer-to-string can produce. */
  predicate IsNumeral(s: string)
  {
    forall i :: 0 <= i < |s| ==> IsDigit(s[i]) || s[i] == '-'
  }

  function DigitChar(d: int): (c: char)
    requires 0 <= d < 10
    ensures IsDigit(c) && c as int - '0' as int == d
  {
    ('0' as int + d) as char
  }

  /** Decimal representation of a natural number, most significant digit first. */
  function Digits(n: nat): (s: string)
    ensures 1 <= |s| && IsDigits(s)
    ensures s[0] == '0' ==> n == 0
  {
    if n < 10 then [DigitChar(n)] else Digits(n / 10) + [DigitChar(n % 10)]
  }

  /** Value of a string of decimal digits (the empty string reads as 0). */
  function ParseDigits(s: string): nat
    requires IsDigits(s)
  {
    if |s| == 0 then 0 else ParseDigits(s[..|s| - 1]) * 10 + (s[|s| - 1] as int - '0' as int)
  }

  /** Reading the digits of `n` gives back `n`. */
  lemma {:induction false} ParseDigitsOfDigits(n: nat)
    ensures ParseDigits(Digits(n)) == n
  {
    var s := Digits(n);
    if n < 10 {
      assert s[..|s| - 1] == [];
    } else {
      assert s[..|s| - 1] == Digits(n / 10);
      ParseDigitsOfDigits(n / 10);
    }
  }

  lemma DigitsBelow100(n: nat)
    requires n < 100
    ensures |Digits(n)| <= 2
  {
  }

  lemma DigitsBelow1000(n: nat)
    requires n < 1000
    ensures |Digits(n)| <= 3
  {
    if n >= 10 {
      DigitsBelow100(n / 10);
    }
  }

  /** JavaScript's `Number.prototype.toString` on an integer. */
  function ToString(n: int): (s: string)
    ensures 1 <= |s| && IsNumeral(s)
    ensures n >= 0 ==> s == Digits(n)
  {
    if n < 0 then "-" + Digits(-n) else Digits(n)
  }

  function Zeros(k: nat): (s: string)
    ensures |s| == k && IsDigits(s)
  {
    seq(k, _ => '0')
  }

  function Max(a: int, b: int): int
  {
    if a < b then b else a
  }

  /** `pad(number, length)`: the decimal text of `number`, left-filled with
      zeros up to `length` characters. */
  function Pad(n: int, length: int): (r: string)
    ensures |r| == Max(length, |ToString(n)|)
    ensures r[|r| - |ToString(n)|..] == ToString(n)
    ensures forall i :: 0 <= i < |r| - |ToString(n)| ==> r[i] == '0'
    ensures IsNumeral(r)
  {
    var digits := ToString(n);
    if |digits| < length then Zeros(length - |digits|) + digits else digits
  }

  /** Padding leaves text that already reaches the requested length alone. */
  lemma PadIdentity(n: int, length: int)
    requires length <= |ToString(n)|
    ensures Pad(n, length) == ToString(n)
  {
  }

  lemma {:induction false} ParseDigitsOfZeros(k: nat)
    ensures ParseDigits(Zeros(k)) == 0
  {
    if k > 0 {
      assert Zeros(k)[..k - 1] == Zeros(k - 1);
      ParseDigitsOfZeros(k - 1);
    }
  }

  /** Leading zeros do not change the value of a digit string. */
  lemma {:induction false} ParseDigitsLeadingZeros(k: nat, s: string)
    requires IsDigits(s)
    ensures IsDigits(Zeros(k) + s)
    ensures ParseDigits(Zeros(k) + s) == ParseDigits(s)
  {
    var t := Zeros(k) + s;
    assert IsDigits(t) by {
      forall i | 0 <= i < |t|
        ensures IsDigit(t[i])
      {
        if i < k {
          assert t[i] == Zeros(k)[i];
        } else {
          assert t[i] == s[i - k];
        }
      }
    }
    if |s| == 0 {
      assert t == Zeros(k);
      ParseDigitsOfZeros(k);
    } else {
      assert t[..|t| - 1] == Zeros(k) + s[..|s| - 1];
      ParseDigitsLeadingZeros(k, s[..|s| - 1]);
    }
  }

  /** A padded natural number is all digits and reads back as the number. */
  lemma PadValue(n: nat, length: int)
    ensures IsDigits(Pad(n, length))
    ensures ParseDigits(Pad(n, length)) == n
  {
    var d := Digits(n);
    assert ToString(n) == d;
    ParseDigitsOfDigits(n);
    if |d| < length {
      assert Pad(n, length) == Zeros(length - |d|) + d;
      ParseDigitsLeadingZeros(length - |d|, d);
    } else {
      assert Pad(n, length) == d;
    }
  }

  /** JavaScript's `%`, whose result takes the sign of the dividend. */
  function JsRem(a: int, b: int): (r: int)
    requires 0 < b
    ensures (a - r) % b == 0
    ensures -b < r < b
    ensures a >= 0 ==> r >= 0
    ensures a <= 0 ==> r <= 0
  {
    if a >= 0 then
      var q, m := a / b, a % b;
      assert a - m == b * q;
      MultipleHasNoRem(b, q);
      m
    else
      var q, m := (-a) / b, (-a) % b;
      assert a + m == b * -q;
      MultipleHasNoRem(b, -q);
      -m
  }

  lemma MultipleHasNoRem(b: int, q: int)
    requires 0 < b
    ensures (b * q) % b == 0
  {
    DivModUnique(b * q, b, q, 0);
  }

  /** The hour, minute, second and millisecond fields `msToString` derives
      from a stamp; `Math.floor(x / d)` with a positive `d` is Dafny's `/`. */
  function Clock(stamp: int): (t: Time)
    ensures stamp >= 0 ==> 0 <= t.hours && 0 <= t.minutes < 60 && 0 <= t.seconds < 60 && 0 <= t.milliseconds < 1000
    ensures t.hours > 0 <==> stamp >= 3_600_000
  {
    Time(stamp / 3_600_000, JsRem(stamp / 60_000, 60), JsRem(stamp / 1000, 60), JsRem(stamp, 1000))
  }

  /** The fields of a non-negative stamp add back up to the stamp. */
  lemma ClockRoundTrip(stamp: nat)
    ensures TimeToMs(Clock(stamp)) == stamp
  {
    var a, r0 := stamp / 1000, stamp % 1000;
    var b, r1 := a / 60, a % 60;
    var c, r2 := b / 60, b % 60;
    assert stamp == 60_000 * b + (1000 * r1 + r0);
    DivModUnique(stamp, 60_000, b, 1000 * r1 + r0);
    assert stamp == 3_600_000 * c + (60_000 * r2 + 1000 * r1 + r0);
    DivModUnique(stamp, 3_600_000, c, 60_000 * r2 + 1000 * r1 + r0);
  }

  /** A time record with fields in range is recovered from its millisecond count. */
  lemma ClockOfTime(t: Time)
    requires 0 <= t.hours && 0 <= t.minutes < 60 && 0 <= t.seconds < 60 && 0 <= t.milliseconds < 1000
    ensures Clock(TimeToMs(t)) == t
  {
    var x := TimeToMs(t);
    var a := 60 * (60 * t.hours + t.minutes) + t.seconds;
    DivModUnique(x, 1000, a, t.milliseconds);
    DivModUnique(a, 60, 60 * t.hours + t.minutes, t.seconds);
    DivModUnique(x, 60_000, 60 * t.hours + t.minutes, 1000 * t.seconds + t.milliseconds);
    DivModUnique(60 * t.hours + t.minutes, 60, t.hours, t.minutes);
    DivModUnique(x, 3_600_000, t.hours, 60_000 * t.minutes + 1000 * t.seconds + t.milliseconds);
  }

  /** The text `msToString` builds from the fields of a stamp. */
  function Render(t: Time): string
  {
    HourPart(t.hours) + (Pad(t.minutes, 2) + ":" + Pad(t.seconds, 2) + "." + Pad(t.milliseconds, 3))
  }

  /** The optional `<h>h` prefix. */
  function HourPart(hours: int): string
  {
    if hours > 0 then ToString(hours) + "h" else ""
  }

  /** `msToString(stamp)`: `[<h>h]MM:SS.mmm`. The `h` marker appears exactly
      when the stamp reaches one hour. */
  function MsToString(stamp: int): (r: string)
    ensures 'h' in r <==> stamp >= 3_600_000
  {
    RenderHourMarker(Clock(stamp));
    Render(Clock(stamp))
  }

  lemma NumeralHasNoHourMarker(s: string)
    requires IsNumeral(s)
    ensures 'h' !in s
  {
  }

  lemma RenderHourMarker(t: Time)
    ensures 'h' in Render(t) <==> t.hours > 0
  {
    var pm, ps, pms := Pad(t.minutes, 2), Pad(t.seconds, 2), Pad(t.milliseconds, 3);
    NumeralHasNoHourMarker(pm);
    NumeralHasNoHourMarker(ps);
    NumeralHasNoHourMarker(pms);
    var tail := pm + ":" + ps + "." + pms;
    assert 'h' !in tail;
    var head := HourPart(t.hours);
    assert Render(t) == head + tail;
    if t.hours > 0 {
      assert head[|head| - 1] == 'h';
    } else {
      assert head == [];
    }
  }

  /** Reads back the `[<h>h]MM:SS.mmm` text that MsToString writes. */
  function ParseClock(s: string): Option<int>
  {
    if |s| < 9 then None
    else
      var head, tail := s[..|s| - 9], s[|s| - 9..];
      if !(IsDigits(tail[0..2]) && tail[2] == ':' && IsDigits(tail[3..5]) && tail[5] == '.' && IsDigits(tail[6..9])) then None
      else
        var m, sec, ms := ParseDigits(tail[0..2]), ParseDigits(tail[3..5]), ParseDigits(tail[6..9]);
        if |head| == 0 then Some(TimeToMs(Time(0, m, sec, ms)))
        else if 2 <= |head| && head[|head| - 1] == 'h' && IsDigits(head[..|head| - 1]) then
          Some(TimeToMs(Time(ParseDigits(head[..|head| - 1]), m, sec, ms)))
        else None
  }

  /** Slicing the fixed-width `MM:SS.mmm` tail back into its fields. */
  lemma SplitFields(head: string, pm: string, ps: string, pms: string)
    requires |pm| == 2 && |ps| == 2 && |pms| == 3
    ensures var s := head + (pm + ":" + ps + "." + pms);
      && |s| >= 9 && s[..|s| - 9] == head
      && s[|s| - 9..][0..2] == pm && s[|s| - 9..][2] == ':'
      && s[|s| - 9..][3..5] == ps && s[|s| - 9..][5] == '.'
      && s[|s| - 9..][6..9] == pms
  {
    var tail := pm + ":" + ps + "." + pms;
    var s := head + tail;
    assert s[..|s| - 9] == head;
    assert s[|s| - 9..] == tail;
    assert tail[0..2] == pm;
    assert tail[3..5] == ps;
    assert tail[6..9] == pms;
  }

  /** ParseClock on text assembled from well-formed pieces. */
  lemma ParseClockOfPieces(hours: nat, head: string, pm: string, ps: string, pms: string)
    requires head == if hours > 0 then Digits(hours) + "h" else ""
    requires |pm| == 2 && |ps| == 2 && |pms| == 3
    requires IsDigits(pm) && IsDigits(ps) && IsDigits(pms)
    ensures ParseClock(head + (pm + ":" + ps + "." + pms))
        == Some(TimeToMs(Time(hours, ParseDigits(pm), ParseDigits(ps), ParseDigits(pms))))
  {
    SplitFields(head, pm, ps, pms);
    if hours > 0 {
      assert head[..|head| - 1] == Digits(hours);
      ParseDigitsOfDigits(hours);
    }
  }

  /** A field that fits its width pads to exactly that width and reads back. */
  lemma PadField(n: nat, width: nat)
    requires |Digits(n)| <= width
    ensures |Pad(n, width)| == width && IsDigits(Pad(n, width)) && ParseDigits(Pad(n, width)) == n
  {
    PadValue(n, width);
  }

  lemma RenderRoundTrip(t: Time)
    requires 0 <= t.hours && 0 <= t.minutes < 60 && 0 <= t.seconds < 60 && 0 <= t.milliseconds < 1000
    ensures ParseClock(Render(t)) == Some(TimeToMs(t))
  {
    var pm, ps, pms := Pad(t.minutes, 2), Pad(t.seconds, 2), Pad(t.milliseconds, 3);
    DigitsBelow100(t.minutes);
    DigitsBelow100(t.seconds);
    DigitsBelow1000(t.milliseconds);
    PadField(t.minutes, 2);
    PadField(t.seconds, 2);
    PadField(t.milliseconds, 3);
    var head := HourPart(t.hours);
    assert head == if t.hours > 0 then Digits(t.hours) + "h" else "";
    ParseClockOfPieces(t.hours, head, pm, ps, pms);
    assert Render(t) == head + (pm + ":" + ps + "." + pms);
  }

  /** Every non-negative stamp is recovered from its formatted text. */
  lemma MsToStringRoundTrip(stamp: nat)
    ensures ParseClock(MsToString(stamp)) == Some(stamp)
  {
    RenderRoundTrip(Clock(stamp));
    ClockRoundTrip(stamp);
  }
}

=== FILE: hosts.dfy ===
/** One Kodi instance as kodisync.js tracks it (the `Host` class), with the
    remote replies it would receive supplied as inputs. */
module Hosts {
  import opened Wrappers
  import opened Timing

  /** The sync baseline (`syncState`): what the host is expected to be doing
      since kodisync last commanded it. */
  datatype Baseline =
    | Unknown                              // null: no baseline
    | Paused(position: int)                // {state: "pause", position}
    | Playing(position: int, at: int)      // {state: "play", position, at}

  /** The fields of Player.GetItem that kodisync compares (`label` becomes
      `displayLabel`, `label` being reserved in Dafny). A show title that
      Kodi leaves out is the empty string; season and episode use Kodi's -1. */
  datatype Item = Item(showTitle: string, season: int, episode: int, title: string, displayLabel: string)

  /** A reply of Player.GetProperties (`speed`, `time`), paired with the clock
      reading taken when the request was issued (`querytime`). */
  datatype Reading = Reading(speed: int, time: Time, queryTime: int)

  /** What one refresh at the top of a cycle observes: the active video player
      and, when there is one, its item and playback properties. */
  datatype Observation = Observation(playerId: Option<int>, item: Item, reading: Reading)

  datatype Host = Host(
    playerId: Option<int>,
    item: Item,
    speed: int,
    position: int,
    queryTime: int,
    baseline: Baseline)

  /** The truthiness test on `playerid` at the top of the cycle: a missing id
      and the id 0 both count as "no player". */
  predicate HasPlayer(playerId: Option<int>)
  {
    playerId.Some? && playerId.value != 0
  }

  /** `updatePlaybackStatus`: adopt a fresh properties reply. */
  function Read(h: Host, rd: Reading): (r: Host)
    ensures r.speed == rd.speed && r.position == TimeToMs(rd.time) && r.queryTime == rd.queryTime
    ensures r.playerId == h.playerId && r.item == h.item && r.baseline == h.baseline
  {
    h.(speed := rd.speed, position := TimeToMs(rd.time), queryTime := rd.queryTime)
  }

  /** `Host.pause`: the host is taken to be paused where it was last read. */
  function Pause(h: Host): (r: Host)
    ensures r.speed == 0 && r.baseline == Paused(h.position)
    ensures r.(speed := h.speed, baseline := h.baseline) == h
  {
    h.(speed := 0, baseline := Paused(h.position))
  }

  /** `Host.play`: `speed` is the speed the PlayPause reply reports, `clock`
      the time the reply arrived. The baseline keeps the last read position. */
  function Play(h: Host, speed: int, clock: int): (r: Host)
    ensures r.speed == speed && r.baseline == Playing(h.position, clock)
    ensures r.(speed := h.speed, baseline := h.baseline) == h
  {
    h.(speed := speed, baseline := Playing(h.position, clock))
  }

  /** `Host.seek`: where the seek lands is whatever the properties read after
      it reports (`rd`); `clock` is the time taken after that read. */
  function Seek(h: Host, rd: Reading, clock: int): (r: Host)
    ensures r.speed == rd.speed && r.position == TimeToMs(rd.time) && r.queryTime == rd.queryTime
    ensures r.baseline.Playing? <==> rd.speed == 1
    ensures r.baseline.Playing? ==> r.baseline == Playing(r.position, clock)
    ensures !r.baseline.Playing? ==> r.baseline == Paused(r.position)
    ensures r.playerId == h.playerId && r.item == h.item
  {
    var h' := Read(h, rd);
    h'.(baseline := if h'.speed == 1 then Playing(h'.position, clock) else Paused(h'.position))
  }

  /** The per-host step at the top of a cycle: record the active player; with
      one, refresh item and properties; without one, drop the baseline and keep
      the previous item and properties. */
  function Refresh(h: Host, obs: Observation): (r: Host)
    ensures r.playerId == obs.playerId
    ensures HasPlayer(obs.playerId) ==> r == Read(h, obs.reading).(playerId := obs.playerId, item := obs.item)
    ensures !HasPlayer(obs.playerId) ==> r == h.(playerId := obs.playerId, baseline := Unknown)
    ensures r.baseline == h.baseline || r.baseline == Unknown
  {
    var h' := h.(playerId := obs.playerId);
    if HasPlayer(obs.playerId) then Read(h'.(item := obs.item), obs.reading)
    else h'.(baseline := Unknown)
  }

  /** An integer or the `Infinity` that `reduce` starts from. */
  datatype Extended = Finite(value: int) | Infinity

  function MinExtended(a: Extended, b: int): Extended
  {
    match a
    case Infinity => Finite(b)
    case Finite(x) => if x <= b then Finite(x) else Finite(b)
  }

  /** `earliestPosition`: the least position, folded from the left starting
      at Infinity. */
  function EarliestPosition(hs: seq<Host>): (r: Extended)
    ensures r == Infinity <==> |hs| == 0
    ensures r.Finite? ==> forall i :: 0 <= i < |hs| ==> r.value <= hs[i].position
    ensures r.Finite? ==> exists i :: 0 <= i < |hs| && r.value == hs[i].position
  {
    if |hs| == 0 then Infinity
    else
      var r := MinExtended(EarliestPosition(hs[..|hs| - 1]), hs[|hs| - 1].position);
      assert forall i :: 0 <= i < |hs| - 1 ==> hs[..|hs| - 1][i] == hs[i];
      r
  }
}

=== FILE: reconcile.dfy ===
/** One cycle of kodisync's `run` loop as a pure function: refresh every host,
    check they play the same thing, classify drift, and reconcile according to
    the number of hosts left without a baseline. */
module Reconcile {
  import opened Wrappers
  import opened Timing
  import opened Hosts
  import opened Content
  import opened Drift

  /** The replies a host would give to the commands a reconciliation issues,
      with the clock readings taken around them. Each branch uses only some. */
  datatype Replies = Replies(
    reread: Reading,     // properties read right after the pause
    seekRead: Reading,   // properties read after a seek has settled
    seekClock: int,      // Date.now() when the seek baseline is recorded
    playSpeed: int,      // speed reported by the PlayPause(play) reply
    playClock: int)      // Date.now() when the play baseline is recorded

  /** What a cycle decided, with the values its commands carry. */
  datatype Plan =
    | Mismatch                      // not all hosts play the same thing: wait 1000 ms
    | Idle                          // every host synced: wait 500 ms
    | ResyncAll(paused: set<nat>, target: int)
    | FollowPlaying(primary: nat, target: int, zeroPoint: int, waits: seq<int>)
    | FollowPaused(primary: nat, target: int)
    | Fault(primary: nat, speed: int)   // the thrown "Unexpected speed" error

  datatype Step = Step(hosts: seq<Host>, plan: Plan)

  /** Two or more hosts unsynced: pause those not already paused, re-read
      everyone, and seek everyone to the earliest position. */
  function FullResync(hs: seq<Host>, replies: seq<Replies>): (r: Step)
    requires |replies| == |hs| && |hs| > 0
    ensures |r.hosts| == |hs| && r.plan.ResyncAll?
    ensures r.plan.paused == (set i: nat | i < |hs| && hs[i].speed != 0)
    // the target is the least of the positions read after pausing
    ensures forall i :: 0 <= i < |hs| ==> r.plan.target <= TimeToMs(replies[i].reread.time)
    ensures exists i :: 0 <= i < |hs| && r.plan.target == TimeToMs(replies[i].reread.time)
    // every host is seeked, and its baseline follows the read after the seek
    ensures forall i :: 0 <= i < |hs| ==>
      r.hosts[i] == Seek(Read(if hs[i].speed != 0 then Pause(hs[i]) else hs[i], replies[i].reread),
                         replies[i].seekRead, replies[i].seekClock)    ensures forall i :: 0 <= i < |hs| ==> !r.hosts[i].baseline.Unknown?
  {
    var reread := seq(|hs|, i requires 0 <= i < |hs| =>
      Read(if hs[i].speed != 0 then Pause(hs[i]) else hs[i], replies[i].reread));
    var target := EarliestPosition(reread);
    var seeked := seq(|hs|, i requires 0 <= i < |hs| => Seek(reread[i], replies[i].seekRead, replies[i].seekClock));
    assert forall i :: 0 <= i < |hs| ==> reread[i].position == TimeToMs(replies[i].reread.time);
    assert forall i :: 0 <= i < |hs| ==> !seeked[i].baseline.Unknown?;
    Step(seeked, ResyncAll((set i: nat | i < |hs| && hs[i].speed != 0), target.value))
  }

  /** The staggered start: the zero point and how long each host waits. */
  datatype Stagger = Stagger(zeroPoint: int, waits: seq<int>)

  /** `zeroPoint = earliestPosition(hosts)` and `waitTime = position - zeroPoint`. */
  function ComputeStagger(hs: seq<Host>): (s: Stagger)
    requires |hs| > 0
    ensures |s.waits| == |hs|
    ensures forall i :: 0 <= i < |hs| ==> s.waits[i] >= 0 && hs[i].position == s.zeroPoint + s.waits[i]
    ensures exists i :: 0 <= i < |hs| && s.waits[i] == 0
  {
    var zeroPoint := EarliestPosition(hs).value;
    var waits := seq(|hs|, i requires 0 <= i < |hs| => hs[i].position - zeroPoint);
    assert forall i :: 0 <= i < |hs| ==> zeroPoint == hs[i].position ==> waits[i] == 0;
    Stagger(zeroPoint, waits)
  }

  /** The lone unsynced host is playing: pause everyone, re-read the primary,
      seek the secondaries to it, then play each host after waiting its
      distance ahead of the earliest host. */
  function FollowPrimaryPlaying(hs: seq<Host>, p: nat, replies: seq<Replies>): (r: Step)
    requires |replies| == |hs| && p < |hs|
    ensures |r.hosts| == |hs| && r.plan.FollowPlaying? && r.plan.primary == p
    ensures r.plan.target == TimeToMs(replies[p].reread.time)
    ensures r.hosts[p].position == r.plan.target
    ensures forall i :: 0 <= i < |hs| && i != p ==> r.hosts[i].position == TimeToMs(replies[i].seekRead.time)
    // stagger: waits are non-negative, the earliest host waits 0, and each
    // host's wait is its distance ahead of the zero point
    ensures |r.plan.waits| == |hs|
    ensures forall i :: 0 <= i < |hs| ==> r.plan.waits[i] >= 0
    ensures exists i :: 0 <= i < |hs| && r.plan.waits[i] == 0
    ensures forall i :: 0 <= i < |hs| ==> r.hosts[i].position == r.plan.zeroPoint + r.plan.waits[i]
    // every host ends with a play baseline at its own position
    ensures forall i :: 0 <= i < |hs| ==>
      r.hosts[i].baseline == Playing(r.hosts[i].position, replies[i].playClock)
      && r.hosts[i].speed == replies[i].playSpeed
    // the commands never touch a host's player or item
    ensures forall i :: 0 <= i < |hs| ==> r.hosts[i].playerId == hs[i].playerId && r.hosts[i].item == hs[i].item
  {
    var seeked := SettleAll(hs, p, replies);
    var stagger := ComputeStagger(seeked);
    Step(PlayAll(seeked, replies), FollowPlaying(p, seeked[p].position, stagger.zeroPoint, stagger.waits))
  }

  function SettleAll(hs: seq<Host>, p: nat, replies: seq<Replies>): (r: seq<Host>)
    requires |replies| == |hs|
    ensures |r| == |hs|
    ensures forall i :: 0 <= i < |hs| ==> r[i] == Settle(hs[i], i == p, replies[i])
  {
    seq(|hs|, i requires 0 <= i < |hs| => Settle(hs[i], i == p, replies[i]))
  }

  /** Each host started with the speed and clock of its own play reply; the
      play keeps its position, player and item. */
  function PlayAll(hs: seq<Host>, replies: seq<Replies>): (r: seq<Host>)
    requires |replies| == |hs|
    ensures |r| == |hs|
    ensures forall i :: 0 <= i < |hs| ==>
      && r[i].baseline == Playing(hs[i].position, replies[i].playClock) && r[i].speed == replies[i].playSpeed
      && r[i].position == hs[i].position && r[i].playerId == hs[i].playerId && r[i].item == hs[i].item
  {
    seq(|hs|, i requires 0 <= i < |hs| => Play(hs[i], replies[i].playSpeed, replies[i].playClock))
  }

  /** Where a host stands before the staggered play: paused, then the primary
      re-read where it stopped and every other host seeked to it. */
  function Settle(h: Host, primary: bool, rep: Replies): (r: Host)
    ensures r.position == TimeToMs(if primary then rep.reread.time else rep.seekRead.time)
    ensures r.playerId == h.playerId && r.item == h.item
  {
    if primary then Read(Pause(h), rep.reread) else Seek(Pause(h), rep.seekRead, rep.seekClock)
  }

  /** The lone unsynced host is paused: pin its baseline where it is, and
      pause and seek every secondary to that position. */
  function FollowPrimaryPaused(hs: seq<Host>, p: nat, replies: seq<Replies>): (r: Step)
    requires |replies| == |hs| && p < |hs|
    ensures |r.hosts| == |hs| && r.plan == FollowPaused(p, hs[p].position)
    ensures r.hosts[p] == hs[p].(baseline := Paused(hs[p].position))
    ensures forall i :: 0 <= i < |hs| && i != p ==>
      && r.hosts[i].speed == replies[i].seekRead.speed
      && r.hosts[i].position == TimeToMs(replies[i].seekRead.time)
      && (r.hosts[i].baseline.Playing? <==> replies[i].seekRead.speed == 1)
    // each secondary's baseline is exactly what the seek records, and its
    // player and item are untouched
    ensures forall i :: 0 <= i < |hs| && i != p ==>
      var pos := TimeToMs(replies[i].seekRead.time);
      && r.hosts[i].baseline == (if replies[i].seekRead.speed == 1 then Playing(pos, replies[i].seekClock) else Paused(pos))
      && r.hosts[i].playerId == hs[i].playerId
      && r.hosts[i].item == hs[i].item
    ensures forall i :: 0 <= i < |hs| ==> !r.hosts[i].baseline.Unknown?
  {
    var target := hs[p].position;
    var hosts := seq(|hs|, i requires 0 <= i < |hs| =>
      if i == p then hs[p].(baseline := Paused(target))
      else Seek(Pause(hs[i]), replies[i].seekRead, replies[i].seekClock));
    Step(hosts, FollowPaused(p, target))
  }

  /** The reconciliation selector, on hosts that have been classified. */
  function Reconcile(hs: seq<Host>, replies: seq<Replies>): (r: Step)
    requires |replies| == |hs|
    ensures |r.hosts| == |hs|
    ensures r.plan == Idle <==> forall i :: 0 <= i < |hs| ==> !hs[i].baseline.Unknown?
    ensures r.plan.ResyncAll? <==> UnsyncedCount(hs) >= 2
    ensures r.plan.Fault? ==>
      && r.plan.primary < |hs| && hs[r.plan.primary].baseline.Unknown?
      && r.plan.speed == hs[r.plan.primary].speed && r.plan.speed != 0 && r.plan.speed != 1
    // commands leave every host with a baseline; otherwise nothing changes
    ensures Commands(r.plan) ==> forall i :: 0 <= i < |hs| ==> !r.hosts[i].baseline.Unknown?
    ensures !Commands(r.plan) ==> r.hosts == hs
  {
    var unsynced := UnsyncedCount(hs);
    if unsynced == 0 then Step(hs, Idle)
    else if unsynced > 1 then FullResync(hs, replies)
    else
      var p := FirstUnsynced(hs, 0).value;
      if hs[p].speed == 1 then FollowPrimaryPlaying(hs, p, replies)
      else if hs[p].speed == 0 then FollowPrimaryPaused(hs, p, replies)
      else Step(hs, Fault(p, hs[p].speed))
  }

  /** The refresh fan-out at the top of the cycle: each host with its own
      observation. */
  function RefreshAll(hosts: seq<Host>, obs: seq<Observation>): (r: seq<Host>)
    requires |obs| == |hosts|
    ensures |r| == |hosts|
    ensures forall i :: 0 <= i < |hosts| ==> r[i] == Refresh(hosts[i], obs[i])
  {
    seq(|hosts|, i requires 0 <= i < |hosts| => Refresh(hosts[i], obs[i]))
  }

  /** One pass of the `run` loop. */
  function Cycle(hosts: seq<Host>, obs: seq<Observation>, replies: seq<Replies>): (r: Step)
    requires |obs| == |hosts| && |replies| == |hosts|
    ensures |r.hosts| == |hosts|
    // without commands a baseline is only kept or dropped, never restored,
    // and a host that has lost its player keeps none
    ensures !Commands(r.plan) ==>
      forall i :: 0 <= i < |hosts| ==>
        && (r.hosts[i].baseline == hosts[i].baseline || r.hosts[i].baseline == Unknown)
        && (!HasPlayer(obs[i].playerId) ==> r.hosts[i].baseline == Unknown)
    // the content gate: the cycle stops exactly when the refreshed hosts do not
    // play the same thing, and then nothing is classified or commanded
    ensures var refreshed := RefreshAll(hosts, obs);
      && (r.plan == Mismatch <==> !PlayingSameThing(refreshed))
      && (r.plan == Mismatch ==> r.hosts == refreshed)
    // once they match, the hosts are classified and the count picks the plan
    ensures var refreshed := RefreshAll(hosts, obs);
      && (r.plan == Idle <==>
            PlayingSameThing(refreshed) && forall i :: 0 <= i < |hosts| ==> !Classify(refreshed[i]).baseline.Unknown?)
      && (r.plan == Idle ==> r.hosts == ClassifyAll(refreshed))
      && (r.plan.ResyncAll? <==> PlayingSameThing(refreshed) && UnsyncedCount(ClassifyAll(refreshed)) >= 2)
      && (Commands(r.plan) ==> forall i :: 0 <= i < |hosts| ==> !r.hosts[i].baseline.Unknown?)
  {
    var refreshed := RefreshAll(hosts, obs);
    RefreshKeepsOrDrops(hosts, obs);
    if !PlayingSameThing(refreshed) then Step(refreshed, Mismatch)
    else
      MatchedCycle(refreshed, replies);
      Reconcile(ClassifyAll(refreshed), replies)
  }

  /** The refresh only keeps or drops baselines, and drops the baseline of a
      host without a player. */
  lemma RefreshKeepsOrDrops(hosts: seq<Host>, obs: seq<Observation>)
    requires |obs| == |hosts|
    ensures forall i :: 0 <= i < |hosts| ==>
      && (RefreshAll(hosts, obs)[i].baseline == hosts[i].baseline || RefreshAll(hosts, obs)[i].baseline == Unknown)
      && (!HasPlayer(obs[i].playerId) ==> RefreshAll(hosts, obs)[i].baseline == Unknown)
  {
  }

  /** The part of a cycle after the content check, stated against the
      hosts as refreshed. */
  lemma MatchedCycle(rs: seq<Host>, replies: seq<Replies>)
    requires |replies| == |rs|
    ensures var r := Reconcile(ClassifyAll(rs), replies);
      && r.plan != Mismatch
      && (r.plan == Idle <==> forall i :: 0 <= i < |rs| ==> !Classify(rs[i]).baseline.Unknown?)
      && (r.plan == Idle ==> r.hosts == ClassifyAll(rs))
      && (r.plan.ResyncAll? <==> UnsyncedCount(ClassifyAll(rs)) >= 2)
      && (Commands(r.plan) ==> forall i :: 0 <= i < |rs| ==> !r.hosts[i].baseline.Unknown?)
      && (!Commands(r.plan) ==> forall i :: 0 <= i < |rs| ==>
            r.hosts[i].baseline == rs[i].baseline || r.hosts[i].baseline == Unknown)
  {
    var classified := ClassifyAll(rs);
    assert forall i :: 0 <= i < |rs| ==> classified[i] == Classify(rs[i]);
  }

  /** Every host synced: nothing is done and nothing changes. */
  lemma ReconcileAllSynced(hs: seq<Host>, replies: seq<Replies>)
    requires |replies| == |hs|
    requires forall i :: 0 <= i < |hs| ==> !hs[i].baseline.Unknown?
    ensures Reconcile(hs, replies) == Step(hs, Idle)
  {
  }

  /** Two distinct unsynced hosts trigger the full resync. */
  lemma ReconcileSeveralUnsynced(hs: seq<Host>, replies: seq<Replies>, i: nat, j: nat)
    requires |replies| == |hs|
    requires i < |hs| && j < |hs| && i != j
    requires hs[i].baseline.Unknown? && hs[j].baseline.Unknown?
    ensures Reconcile(hs, replies) == FullResync(hs, replies)
  {
    TwoUnsynced(hs, i, j);
  }

  /** A single unsynced host is the primary, every other host a secondary;
      its speed picks the protocol, and a speed other than 0 or 1 is the
      fatal error. */
  lemma ReconcileLoneUnsynced(hs: seq<Host>, replies: seq<Replies>, p: nat)
    requires |replies| == |hs| && p < |hs| && hs[p].baseline.Unknown?
    requires forall j :: 0 <= j < |hs| && j != p ==> !hs[j].baseline.Unknown?
    ensures hs[p].speed == 1 ==> Reconcile(hs, replies) == FollowPrimaryPlaying(hs, p, replies)
    ensures hs[p].speed == 0 ==> Reconcile(hs, replies) == FollowPrimaryPaused(hs, p, replies)
    ensures hs[p].speed != 0 && hs[p].speed != 1 ==> Reconcile(hs, replies) == Step(hs, Fault(p, hs[p].speed))
  {
    UnsyncedCountIsSetSize(hs);
    assert UnsyncedSet(hs) == {p};
    assert FirstUnsynced(hs, 0).value == p;
  }

  /** Whether a plan sends commands to the hosts. */
  predicate Commands(plan: Plan)
  {
    plan.ResyncAll? || plan.FollowPlaying? || plan.FollowPaused?
  }

  /** With two or more hosts, one that has lost its player stops the cycle
      before any classification or command, and its baseline is dropped. */
  lemma CycleWithoutPlayer(hosts: seq<Host>, obs: seq<Observation>, replies: seq<Replies>, k: nat)
    requires |obs| == |hosts| && |replies| == |hosts| && |hosts| >= 2
    requires k < |hosts| && obs[k].playerId.None?
    ensures Cycle(hosts, obs, replies).plan == Mismatch
    ensures Cycle(hosts, obs, replies).hosts[k].baseline == Unknown
  {
    var refreshed := RefreshAll(hosts, obs);
    assert refreshed[k].playerId.None?;
  }
}

=== FILE: scenarios.dfy ===
/** Concrete cycles: typical drift situations, and the inputs that reach the
    fatal "Unexpected speed" error. */
module Scenarios {
  import opened Wrappers
  import opened Timing
  import opened Hosts
  import opened Drift
  import opened Reconcile

  const Episode: Item := Item("Show", 1, 2, "Pilot", "Pilot")

  function Seconds(s: int): Time
  {
    Time(0, 0, s, 0)
  }

  function Observe(speed: int, time: Time, queryTime: int): Observation
  {
    Observation(Some(1), Episode, Reading(speed, time, queryTime))
  }

  /** Replies that no branch of these scenarios depends on. */
  const AnyReplies: Replies := Replies(Reading(0, Seconds(0), 0), Reading(0, Seconds(0), 0), 0, 1, 0)

  /** Two paused hosts 500 ms apart, both with a pause baseline at 10 s: no action. */
  lemma PausedWithinThreshold()
    ensures var hosts := [Host(Some(1), Episode, 0, 10_000, 0, Paused(10_000)),
                          Host(Some(1), Episode, 0, 10_000, 0, Paused(10_000))];
      var obs := [Observe(0, Time(0, 0, 10, 0), 5), Observe(0, Time(0, 0, 10, 500), 5)];
      Cycle(hosts, obs, [AnyReplies, AnyReplies]).plan == Idle
  {
    var h := Host(Some(1), Episode, 0, 10_000, 0, Paused(10_000));
    var obs := [Observe(0, Time(0, 0, 10, 0), 5), Observe(0, Time(0, 0, 10, 500), 5)];
    var refreshed := RefreshAll([h, h], obs);
    assert refreshed[0] == h.(queryTime := 5);
    assert refreshed[1] == h.(position := 10_500, queryTime := 5);
    assert Content.PlayingSameThing(refreshed);
    assert ClassifyAll(refreshed) == refreshed;
  }

  /** Two playing hosts whose baselines project to 42 s; one reads 45.5 s and
      becomes the lone primary, so everyone is paused and staggered back in. */
  lemma PlayingHostDrifts()
    ensures var hosts := [Host(Some(1), Episode, 1, 40_000, 0, Playing(40_000, 0)),
                          Host(Some(1), Episode, 1, 40_000, 0, Playing(40_000, 0))];
      var obs := [Observe(1, Seconds(42), 2000), Observe(1, Time(0, 0, 45, 500), 2000)];
      var r := Cycle(hosts, obs, [AnyReplies, AnyReplies]);
      r.plan.FollowPlaying? && r.plan.primary == 1
  {
    var h := Host(Some(1), Episode, 1, 40_000, 0, Playing(40_000, 0));
    var hosts := [h, h];
    var obs := [Observe(1, Seconds(42), 2000), Observe(1, Time(0, 0, 45, 500), 2000)];
    var refreshed := RefreshAll(hosts, obs);
    assert refreshed[0] == h.(position := 42_000, queryTime := 2000);
    assert refreshed[1] == h.(position := 45_500, queryTime := 2000);
    assert Content.PlayingSameThing(refreshed);
    var classified := ClassifyAll(refreshed);
    assert classified == [refreshed[0], Drop(refreshed[1])];
    ReconcileLoneUnsynced(classified, [AnyReplies, AnyReplies], 1);
  }

  /** Three hosts, two of which drift in the same cycle: full resync. */
  lemma TwoHostsDrift()
    ensures var hosts := seq(3, _ => Host(Some(1), Episode, 0, 10_000, 0, Paused(10_000)));
      var obs := [Observe(0, Seconds(10), 5), Observe(0, Seconds(20), 5), Observe(0, Seconds(30), 5)];
      Cycle(hosts, obs, [AnyReplies, AnyReplies, AnyReplies]).plan.ResyncAll?
  {
    var h := Host(Some(1), Episode, 0, 10_000, 0, Paused(10_000));
    var hosts := seq(3, _ => h);
    var obs := [Observe(0, Seconds(10), 5), Observe(0, Seconds(20), 5), Observe(0, Seconds(30), 5)];
    var refreshed := RefreshAll(hosts, obs);
    assert refreshed[0] == h.(queryTime := 5);
    assert refreshed[1] == h.(position := 20_000, queryTime := 5);
    assert refreshed[2] == h.(position := 30_000, queryTime := 5);
    assert Content.PlayingSameThing(refreshed);
    var classified := ClassifyAll(refreshed);
    assert classified[1] == Drop(refreshed[1]) && classified[2] == Drop(refreshed[2]);
    TwoUnsynced(classified, 1, 2);
  }

  /** A host that loses its player and comes back mid-seek (speed 2) is the
      lone unsynced host, and the cycle ends in the fatal error. */
  lemma FaultIsReachable()
    ensures var hosts := seq(2, _ => Host(Some(1), Episode, 0, 10_000, 0, Paused(10_000)));
      var first := Cycle(hosts, [Observe(0, Seconds(10), 5), Observation(None, Episode, Reading(0, Seconds(0), 5))],
                         [AnyReplies, AnyReplies]);
      var second := Cycle(first.hosts, [Observe(0, Seconds(10), 9), Observe(2, Seconds(30), 9)],
                          [AnyReplies, AnyReplies]);
      first.plan == Mismatch && second.plan == Fault(1, 2)
  {
    var synced := Host(Some(1), Episode, 0, 10_000, 0, Paused(10_000));
    var hosts := seq(2, _ => synced);
    var obs1 := [Observe(0, Seconds(10), 5), Observation(None, Episode, Reading(0, Seconds(0), 5))];
    CycleWithoutPlayer(hosts, obs1, [AnyReplies, AnyReplies], 1);
    var first := Cycle(hosts, obs1, [AnyReplies, AnyReplies]);
    var refreshed1 := RefreshAll(hosts, obs1);
    assert first.hosts == refreshed1;
    assert first.hosts[0] == synced.(queryTime := 5);
    assert first.hosts[1] == synced.(playerId := None, baseline := Unknown);
    var obs2 := [Observe(0, Seconds(10), 9), Observe(2, Seconds(30), 9)];
    var refreshed2 := RefreshAll(first.hosts, obs2);
    assert refreshed2[0] == synced.(queryTime := 9);
    assert refreshed2[1] == Host(Some(1), Episode, 2, 30_000, 9, Unknown);
    assert Content.PlayingSameThing(refreshed2);
    var classified := ClassifyAll(refreshed2);
    assert classified == refreshed2;
    ReconcileLoneUnsynced(classified, [AnyReplies, AnyReplies], 1);
  }

  /** Player id 0 is falsy at the top of the cycle but not null for the content
      check: the host loses its baseline, the cycle does not stop at the
      mismatch, and the host is pinned as the lone paused primary. */
  lemma PlayerIdZeroIsResynced()
    ensures var hosts := seq(2, _ => Host(Some(1), Episode, 0, 10_000, 0, Paused(10_000)));
      var obs := [Observe(0, Seconds(10), 5), Observation(Some(0), Episode, Reading(0, Seconds(10), 5))];
      var r := Cycle(hosts, obs, [AnyReplies, AnyReplies]);
      && !HasPlayer(obs[1].playerId)
      && r.plan == FollowPaused(1, 10_000)
      && r.hosts[1].playerId == Some(0) && r.hosts[1].baseline == Paused(10_000)
  {
    var synced := Host(Some(1), Episode, 0, 10_000, 0, Paused(10_000));
    var hosts := seq(2, _ => synced);
    var obs := [Observe(0, Seconds(10), 5), Observation(Some(0), Episode, Reading(0, Seconds(10), 5))];
    var refreshed := RefreshAll(hosts, obs);
    assert refreshed[0] == synced.(queryTime := 5);
    assert refreshed[1] == synced.(playerId := Some(0), baseline := Unknown);
    assert Content.PlayingSameThing(refreshed);
    var classified := ClassifyAll(refreshed);
    assert classified == refreshed;
    ReconcileLoneUnsynced(classified, [AnyReplies, AnyReplies], 1);
  }

  /** A single host without a player is never compared with anyone, so the
      cycle reconciles it from its stale reading: a paused one gets a pause
      baseline although it has no player. */
  lemma LoneHostWithoutPlayerIsPinned()
    ensures var hosts := [Host(Some(1), Episode, 0, 10_000, 0, Paused(10_000))];
      var r := Cycle(hosts, [Observation(None, Episode, Reading(1, Seconds(99), 5))], [AnyReplies]);
      r.plan == FollowPaused(0, 10_000) && r.hosts[0].baseline == Paused(10_000)
  {
    var h := Host(Some(1), Episode, 0, 10_000, 0, Paused(10_000));
    var obs := [Observation(None, Episode, Reading(1, Seconds(99), 5))];
    var refreshed := RefreshAll([h], obs);
    assert refreshed == [h.(playerId := None, baseline := Unknown)];
    var classified := ClassifyAll(refreshed);
    assert classified == refreshed;
    ReconcileLoneUnsynced(classified, [AnyReplies], 0);
  }
}

=== FILE: timing.dfy ===
/** The sync tolerance and Kodi's time record, as used by kodisync.js. */
module Timing {

  /** Two playback positions closer than this many milliseconds count as in sync. */
  const Threshold: int := 1000

  function Abs(x: int): nat
  {
    if x < 0 then -x else x
  }

  /** Whether `value` lies strictly within the tolerance of `target`. */
  function NearEnough(value: int, target: int): (r: bool)
    ensures r <==> target - Threshold < value < target + Threshold
  {
    Abs(value - target) < Threshold
  }

  /** The tolerance test does not depend on which side is the target. */
  lemma NearEnoughSymmetric(a: int, b: int)
    ensures NearEnough(a, b) == NearEnough(b, a)
  {
  }

  /** Exactly one threshold apart is already out of sync; one millisecond less is not. */
  lemma NearEnoughBoundary(a: int)
    ensures !NearEnough(a + Threshold, a) && !NearEnough(a - Threshold, a)
    ensures NearEnough(a + Threshold - 1, a) && NearEnough(a - Threshold + 1, a)
  {
  }

  /** Kodi's time record, as returned in the `time` property of Player.GetProperties. */
  datatype Time = Time(hours: int, minutes: int, seconds: int, milliseconds: int)

  /** The time record as a number of milliseconds. For a record whose fields
      are in range, the count is non-negative and the hours and milliseconds
      can be read back from it. */
  function TimeToMs(t: Time): (r: int)
    ensures 0 <= t.hours && 0 <= t.minutes < 60 && 0 <= t.seconds < 60 && 0 <= t.milliseconds < 1000 ==>
      0 <= r && r / 3_600_000 == t.hours && r % 1000 == t.milliseconds
  {
    var r := t.hours * 3_600_000 + t.minutes * 60_000 + t.seconds * 1000 + t.milliseconds;
    if 0 <= t.hours && 0 <= t.minutes < 60 && 0 <= t.seconds < 60 && 0 <= t.milliseconds < 1000 then
      DivModUnique(r, 3_600_000, t.hours, t.minutes * 60_000 + t.seconds * 1000 + t.milliseconds);
      DivModUnique(r, 1000, t.hours * 3600 + t.minutes * 60 + t.seconds, t.milliseconds);
      r
    else r
  }

  /** Euclidean division is determined by any quotient/remainder pair. */
  lemma DivModUnique(x: int, d: int, q: int, r: int)
    requires 0 < d && 0 <= r < d && x == d * q + r
    ensures x / d == q && x % d == r
  {
    var q', r' := x / d, x % d;
    assert d * (q - q') == r' - r;
    if q > q' {
      MulAtLeast(d, q - q');
    } else if q < q' {
      MulAtLeast(d, q' - q);
    }
  }

  lemma MulAtLeast(d: int, k: int)
    requires 0 < d && 1 <= k
    ensures d * k >= d
  {
  }
}

=== FILE: wrappers.dfy ===
/** The optional value used for Kodi replies that may be missing. */
module Wrappers {

  datatype Option<+T> = None | Some(value: T)
}
